=== FILE: README.md ===
# Billing dashboard: authentication, role gate, invoice form and unbilled report

A functional Dafny model of the decision logic inside a small billing
dashboard (an Express API and a React front end). Everything around it —
the ORM, HTTP routing, React rendering, the identity provider's cryptography —
is glue; the model keeps the parts that decide something:

- **`requireAuth`** (module `Auth`): picks a credential, preferring an
  `Authorization: Bearer <t>` header and otherwise the `__session` cookie,
  asks the identity provider's verifier about it and ends in exactly one of
  401 "No token provided", 401 "Invalid or expired token" or `next()` with
  the record `{userId, email, token}`.
- **`extractUser`** (module `Auth`): the alternative extractor, which takes the
  second space-separated field of the header whatever its scheme and falls
  back to the cookie whenever that field is empty or missing.
- **`requireRole(allowedRoles)`** (module `Rbac`): 401 without a record, 403
  with the required and actual roles when the role is not allowed, otherwise
  `next()`; and the chain `requireAuth` → `requireRole`.
- **The new-invoice form** (module `InvoiceForm`): the selection toggle, the
  running total at 150 per hour, the guard of `createInvoice`, the request it
  sends and the state it leaves behind.
- **`GET /unbilled` and `GET /unbilled-report`** (module `Unbilled`): entries
  with no invoice, newest first, and the per-entry report with a suggested
  amount.

Shared records (time entries, invoices, `Option`, the hourly rate) live in
`Domain`; JavaScript's `split`, `join` and `startsWith` live in `Text`.

The identity provider's `verifyToken` is a parameter of type
`string -> Verification` (claims, or a rejection with a reason). The database
is a parameter too: the rows it holds, or a failure. The reply of the
`POST /invoices` call is a parameter of `CreateInvoice`, and so is whether the
caller's `onCreated` callback returns normally or throws.

`requireAuth` builds the record `{userId, email, token}` with no role
(apps/api/src/middleware/requireAuth.ts:31-35). `requireRole` reads
`req.auth.role` all the same and gets `undefined`
(apps/api/src/middleware/requireRole.ts:9-11), so behind `requireAuth` the
gate answers 403 to every authenticated request
(`Rbac.GateRejectsEveryAuthenticatedRequest`). The record type therefore
carries an optional `role`, which both extractors leave empty.

## Model

| member | source | states |
|---|---|---|
| `Text.Split` | apps/api/src/middleware/requireAuth.ts:18 | `split(" ")` yields at least one piece, no piece contains the separator, and there is one piece exactly when the string has no separator |
| `Text.StartsWith` | apps/api/src/middleware/requireAuth.ts:17 | `startsWith(prefix)` holds exactly when every character of the prefix matches the string at the same position, and the string is then the prefix followed by its remainder |
| `Text.JoinSplit` | apps/api/src/middleware/requireAuth.ts:18 | joining the pieces of a split with the separator gives back the original header |
| `Text.SplitJoin` | apps/api/src/middleware/requireAuth.ts:18 | splitting a join of separator-free pieces gives back the pieces |
| `Text.Field` | apps/api/src/middleware/requireAuth.ts:18 | `split(" ")[k]` is defined exactly when there are more than k pieces, and a defined piece holds no space |
| `Text.SecondField` | apps/api/src/utils/verify.ts:11-12 | the second field of `a + " " + b` is the text of `b` up to its next space, and all of `b` when it has none |
| `Auth.RecordOf` | apps/api/src/middleware/requireAuth.ts:31-35 | the identity record takes `userId` from the subject claim, `email` from the email claim, keeps the token and has no role |
| `Domain.Truthy` | apps/api/src/middleware/requireAuth.ts:21 | the `!token` test (also verify.ts:13 and NewInvoiceForm.tsx:58): an absent or empty string is falsy, any non-empty string is truthy |
| `Auth.SessionCookie` | apps/api/src/middleware/requireAuth.ts:15 | `req.cookies?.["__session"]` is present exactly when a cookie jar exists and holds `__session`, and is then its value |
| `Auth.HasBearerHeader` | apps/api/src/middleware/requireAuth.ts:17 | `headerAuth?.startsWith("Bearer ")` is false without a header; when true the header is "Bearer " followed by the rest and contains a space, so `split(" ")[1]` is defined |
| `Auth.BearerOrCookie` | apps/api/src/middleware/requireAuth.ts:14-19 | under a "Bearer " header the token is the header's second space-separated field (always present, space-free); otherwise it is the `__session` cookie |
| `Auth.RequireAuth` | apps/api/src/middleware/requireAuth.ts:21-43 | 401 "No token provided" exactly when the token is absent or empty; otherwise 401 "Invalid or expired token" exactly when the verifier rejects and `next()` exactly when it accepts, with a record whose token is the extracted one and whose ids are the verified claims; no other outcome |
| `Auth.BearerIgnoresCookies` | apps/api/src/middleware/requireAuth.ts:17-18 | with a "Bearer " header the cookie is never consulted: requests differing only in cookies get the same outcome |
| `Auth.NonBearerUsesCookie` | apps/api/src/middleware/requireAuth.ts:14-19 | with no header or a non-Bearer header the token is exactly the session cookie and the outcome is that of the same request without a header |
| `Auth.EmptyBearerFieldRejected` | apps/api/src/middleware/requireAuth.ts:17-23 | "Bearer " followed by nothing or by another space yields an empty token and 401 "No token provided" whatever the cookie holds |
| `Auth.NoTokenSkipsVerifier` | apps/api/src/middleware/requireAuth.ts:21-23 | without a token the verifier is not consulted: every verifier gives the same 401 |
| `Auth.BearerHeaderRoundTrip` | apps/api/src/middleware/requireAuth.ts:17-18 | the header "Bearer " + t yields exactly t for any space-free t, whatever the cookies |
| `Auth.HeaderSecondField` | apps/api/src/utils/verify.ts:11-12 | `authorization?.split(" ")[1]` is defined exactly when the header is present and contains a space, and it holds no space |
| `Auth.FieldOrCookie` | apps/api/src/utils/verify.ts:11-12 | the header's second field when it is non-empty; otherwise the `__session` cookie, and a TypeError exactly when the field is falsy and there is no cookie jar |
| `Auth.ExtractUser` | apps/api/src/utils/verify.ts:10-26 | throws "No token provided" exactly when no non-empty token is found (verifier not consulted), propagates the verifier's rejection reason unchanged, and otherwise returns the verified claims with the extracted token |
| `Auth.AnySchemeAccepted` | apps/api/src/utils/verify.ts:11-12 | any scheme works: "Basic abc" yields "abc" |
| `Auth.EmptyBearerDivergence` | apps/api/src/utils/verify.ts:11-12 | for the header "Bearer " with a non-empty cookie, `requireAuth` answers 401 while `extractUser` uses the cookie |
| `Auth.ExtractorsAgreeOnBearer` | apps/api/src/utils/verify.ts:11-25 | on "Bearer " + t (t non-empty, space-free) both extractors pick t, succeed together and build the same record |
| `Rbac.RequireRole` | apps/api/src/middleware/requireRole.ts:3-24 | 401 "Not authenticated" exactly when there is no record; with a record, `next()` exactly when its role is in the allowed list, passing the record on unchanged; otherwise 403 carrying `requiredRoles = allowedRoles` and `yourRole = role` |
| `Rbac.RequireRoleOutcomes` | apps/api/src/middleware/requireRole.ts:5-22 | every input ends in 401, in a 403 role denial listing the allowed roles, or in `next()` |
| `Rbac.EmptyRolesDenyAll` | apps/api/src/middleware/requireRole.ts:11 | with an empty allowed list nobody passes |
| `Rbac.RoleGateMonotonic` | apps/api/src/middleware/requireRole.ts:11 | a record that passes for a list passes, with the same outcome, for every superset of it |
| `Rbac.Permits` | apps/api/src/middleware/requireRole.ts:11 | `allowedRoles.includes(role)` holds exactly when some position of the list equals the role; an absent role matches nothing |
| `Rbac.Guarded` | apps/api/src/middleware/requireAuth.ts:39-42 | `requireRole` runs only when `requireAuth` called `next()`, on the record it built; otherwise `requireAuth`'s response stands |
| `Rbac.GateRejectsEveryAuthenticatedRequest` | apps/api/src/middleware/requireRole.ts:9-11 | behind `requireAuth` the gate never calls `next()`: authenticated requests get 403 with no role reported, the others keep their 401 |
| `InvoiceForm.Remove` | apps/ui/src/components/NewInvoiceForm.tsx:49 | filtering an id out removes all its occurrences and keeps every other id with its multiplicity; an absent id changes nothing |
| `InvoiceForm.RemoveAppend` | apps/ui/src/components/NewInvoiceForm.tsx:49 | the filter distributes over concatenation, so the remaining ids keep their order |
| `InvoiceForm.Toggle` | apps/ui/src/components/NewInvoiceForm.tsx:47-50 | after a toggle an id is selected exactly when it was selected or is the toggled id, but not both; an absent id is appended at the end |
| `InvoiceForm.ToggleKeepsDistinct` | apps/ui/src/components/NewInvoiceForm.tsx:47-50 | a duplicate-free selection stays duplicate-free |
| `InvoiceForm.ToggleTwiceRestores` | apps/ui/src/components/NewInvoiceForm.tsx:47-50 | toggling an unselected id twice restores the original selection |
| `InvoiceForm.ToggleTwiceMovesToEnd` | apps/ui/src/components/NewInvoiceForm.tsx:47-50 | toggling a selected id twice moves it to the end |
| `InvoiceForm.SelectedEntries` | apps/ui/src/components/NewInvoiceForm.tsx:53-54 | an entry is kept exactly when it is loaded and its id is selected, with the multiplicity it has among the loaded entries |
| `InvoiceForm.SelectedEntriesAppend` | apps/ui/src/components/NewInvoiceForm.tsx:53-54 | the filter distributes over concatenation, so kept entries keep their order |
| `InvoiceForm.Subtotal` | apps/ui/src/components/NewInvoiceForm.tsx:55 | the priced sum of no entries is 0 and of entries with non-negative durations is non-negative |
| `InvoiceForm.SubtotalLeftFold` | apps/ui/src/components/NewInvoiceForm.tsx:55 | appending an entry adds its duration × 150, which is the reduce's step `sum + e.duration * 150` from the initial 0 |
| `InvoiceForm.TotalAmount` | apps/ui/src/components/NewInvoiceForm.tsx:53-55 | the total is 0 for an empty selection and never negative when durations are not |
| `InvoiceForm.TotalUnfold` | apps/ui/src/components/NewInvoiceForm.tsx:53-55 | `totalAmount` entry by entry: each loaded entry adds its duration × 150 exactly when its id is selected |
| `InvoiceForm.TotalRespectsMembership` | apps/ui/src/components/NewInvoiceForm.tsx:53-55 | the total depends only on which loaded entries are selected, not on order, duplicates or unloaded ids |
| `InvoiceForm.UnloadedIdAddsNothing` | apps/ui/src/components/NewInvoiceForm.tsx:53-55 | a selected id with no loaded entry contributes nothing |
| `InvoiceForm.ToggleChangesTotal` | apps/ui/src/components/NewInvoiceForm.tsx:47-55 | toggling an id on adds 150 per hour of its loaded entries to the total; toggling it off subtracts the same |
| `InvoiceForm.InvoiceRequestFor` | apps/ui/src/components/NewInvoiceForm.tsx:58-76 | nothing is sent exactly when the client is empty, the selection is empty or the token is missing or empty; otherwise the body carries the client, `amount = totalAmount`, `timeEntryIds = selectedIds` and the header "Bearer " + token |
| `InvoiceForm.IsOk` | apps/ui/src/components/NewInvoiceForm.tsx:79 | `res.ok`: false when the request never got a reply, and otherwise true exactly for a status from 200 to 299 |
| `InvoiceForm.CreateInvoice` | apps/ui/src/components/NewInvoiceForm.tsx:57-93 | a refused guard changes nothing; an ok reply whose body parses as JSON hands the parsed value to `onCreated`, and client and selection are reset exactly when `onCreated` returns; a non-ok reply, a network failure, an unparseable body or a throwing `onCreated` leaves both as they were; a sent request always ends with loading off |
| `InvoiceForm.NoResubmitAfterSuccess` | apps/ui/src/components/NewInvoiceForm.tsx:58-61 | after a successful submission whose `onCreated` returned, the cleared form sends nothing on a second press |
| `InvoiceForm.RetryAfterFailureResends` | apps/ui/src/components/NewInvoiceForm.tsx:79-87 | after a failed submission, or one whose `onCreated` threw, a second press sends the very same request |
| `InvoiceForm.ThrowingCallbackResends` | apps/ui/src/components/NewInvoiceForm.tsx:84-88 | when `onCreated` throws on a created invoice, the invoice was handed over yet the reset is skipped, so the next press posts the same invoice again |
| `InvoiceForm.SentHeaderCarriesToken` | apps/ui/src/components/NewInvoiceForm.tsx:69 | the header the form sends makes `requireAuth` extract exactly the form's token, for a space-free token |
| `Domain.SuggestedAmount` | apps/api/src/index.ts:75 | the suggested amount is never negative for a non-negative duration and is zero exactly when the duration is |
| `Unbilled.IsUnbilled` | apps/api/src/index.ts:44-46 | `where: { invoiceId: null }`: an unbilled entry has no invoice |
| `Unbilled.NewestFirst` | apps/api/src/index.ts:47-49 | `orderBy: { date: "desc" }`: a newest-first list has every entry at least as recent as its successor, and lists of at most one entry are newest first |
| `Unbilled.AdjacentNewestFirst` | apps/api/src/index.ts:47-49 | conversely, a list whose neighbouring entries are in date-descending order is newest first throughout |
| `Unbilled.IsUnbilledListing` | apps/api/src/index.ts:43-50 | an admissible query result is newest first, holds only unbilled entries and has exactly as many entries as there are unbilled rows |
| `Unbilled.UnbilledOf` | apps/api/src/index.ts:43-46 | only entries with no invoice remain, each unbilled row with its multiplicity |
| `Unbilled.Insert` | apps/api/src/index.ts:47-49 | inserting into a newest-first list keeps it newest first and adds exactly the one entry |
| `Unbilled.SortNewestFirst` | apps/api/src/index.ts:47-49 | the result is newest first and a permutation of the input |
| `Unbilled.UnbilledListing` | apps/api/src/index.ts:43-50 | the query result is exactly the unbilled rows (as a multiset), newest first |
| `Unbilled.ListingContents` | apps/api/src/index.ts:43-50 | any result the query may give holds only unbilled entries, every unbilled row, and no more entries than the table |
| `Unbilled.ReportItemOf` | apps/api/src/index.ts:70-81 | a report line copies id, description, duration and date, suggests duration × 150, and its recommendation quotes the same description, date and amount |
| `Unbilled.Report` | apps/api/src/index.ts:70 | exactly one report line per entry, in the same order |
| `Unbilled.ReportPermutation` | apps/api/src/index.ts:70 | reports of two orderings of the same entries hold the same lines |
| `Unbilled.SortedDatesAgree` | apps/api/src/index.ts:47-49 | two date-descending orderings of the same entries carry the same date at every position |
| `Unbilled.GetUnbilled` | apps/api/src/index.ts:41-57 | 500 "Internal Server Error" exactly on a database failure; a successful query always answers 200, with a newest-first listing of exactly the unbilled rows |
| `Unbilled.GetUnbilledReport` | apps/api/src/index.ts:59-88 | 500 "Internal Server Error" exactly on a database failure; a successful query always answers 200, with the report of a valid unbilled listing |
| `Unbilled.ReportFollowsListing` | apps/api/src/index.ts:61-70 | for the same database reply, the report succeeds exactly when `/unbilled` does, and for any listing `/unbilled` may return it has one line per entry, the same lines up to the order of entries sharing a date, and the same date at every position |

## Left out

- The identity provider's token verification (signature checks, key material): a foreign library call, modelled as the `verify` parameter.
- The two payload shapes (`payload.sub` directly versus `result.payload.sub`): both callers are given one `Payload` with a subject and an optional email.
- Diagnostic logging (`console.log`, `console.warn`, `console.error`) in every file.
- The ORM and Express plumbing: the query is modelled by its stated semantics over the table's rows; `res.json` serialisation and `app.listen` are not modelled; routes other than `/unbilled` and `/unbilled-report` in the API entry file are outside this model.
- The order the database gives to entries with the same date: unspecified, so the listing contract fixes only the newest-first order and the contents; `SortNewestFirst` is one admissible order.
- The two endpoints' separate queries against a changing table: both are given the same database reply, and the report is related to `/unbilled`'s answer only up to the order of entries sharing a date.
- The shape of what `res.json()` parses after creating an invoice: the form passes any parsed JSON to `onCreated` unchecked; the model abstracts the parsed value as an invoice.
- Floating-point arithmetic: durations and amounts are mathematical reals, so the rounding of `duration * 150` and of the running sum is not modelled; `toFixed(2)`, the " EUR" suffix, the recommendation wording and `toLocaleDateString` are not modelled beyond the figures they quote.
- The form's fetch of `/unbilled` on mount, its rendering and React's asynchronous state scheduling: the loaded entries are a parameter; `loading` is modelled only in the state left after `createInvoice`, not while the request is in flight.
- The other UI files (the app shell, the invoice list, the user badge) and the database seed script: presentation and one-off I/O.
- Cookie values that cookie-parsing turns into JSON objects: cookies are strings.

=== FILE: auth.dfy ===
/** Request authentication: the `requireAuth` middleware and the alternative
    `extractUser` helper. Both pick a credential from the request, hand it to
    the identity provider's verifier and build the request-scoped identity
    record `{userId, email, token}`. The verifier is a parameter: its
    cryptography is outside this model. */
module Auth {

  import opened Domain
  import opened Text

  /** The parts of an HTTP request the extractors read. `cookies` is `None`
      when no cookie-parsing middleware has populated `req.cookies`. */
  datatype Request = Request(authorization: Option<string>, cookies: Option<map<string, string>>)

  /** Decoded identity claims: the subject and an optional email claim. */
  datatype Payload = Payload(sub: string, email: Option<string>)

  /** What the identity provider's `verifyToken` does with a credential:
      resolve to its claims or throw with a reason. */
  datatype Verification = Verified(payload: Payload) | Rejected(reason: string)

  type Verifier = string -> Verification

  /** The identity record attached to the request as `req.auth`. Its declared
      type has no `role`; reading `role` yields `undefined` (None) unless some
      other code put one there, so the field is kept optional. */
  datatype AuthRecord = AuthRecord(userId: string, email: Option<string>, token: string, role: Option<string>)

  /** The JSON error bodies the middleware chain responds with. */
  datatype ErrorBody =
    | Message(error: string)
    | RoleDenial(error: string, requiredRoles: seq<string>, yourRole: Option<string>)

  /** A middleware's effect: respond with a status and error body and stop, or
      call `next()` with `req.auth` set to the record. */
  datatype Outcome = Respond(status: nat, body: ErrorBody) | Next(auth: AuthRecord)

  const SessionCookieName: string := "__session"
  const BearerPrefix: string := "Bearer "

  const NoToken: Outcome := Respond(401, Message("No token provided"))
  const InvalidToken: Outcome := Respond(401, Message("Invalid or expired token"))

  /** The identity record both extractors build from verified claims. */
  function RecordOf(p: Payload, token: string): (rec: AuthRecord)
    ensures rec.userId == p.sub && rec.email == p.email && rec.token == token
    ensures rec.role.None?
  {
    AuthRecord(p.sub, p.email, token, None)
  }

  /** `req.cookies?.["__session"]`. */
  function SessionCookie(req: Request): (c: Option<string>)
    ensures c.Some? <==> req.cookies.Some? && SessionCookieName in req.cookies.value
    ensures c.Some? ==> c.value == req.cookies.value[SessionCookieName]
  {
    if req.cookies.Some? && SessionCookieName in req.cookies.value
    then Some(req.cookies.value[SessionCookieName])
    else None
  }

  /** `headerAuth?.startsWith("Bearer ")`: false without a header, and a
      Bearer header always contains a space, so its second field exists. */
  function HasBearerHeader(req: Request): (b: bool)
    ensures req.authorization.None? ==> !b
    ensures b ==> req.authorization.Some? && |BearerPrefix| <= |req.authorization.value|
    ensures b ==> req.authorization.value == BearerPrefix + req.authorization.value[|BearerPrefix|..]
    ensures b ==> Space in req.authorization.value
  {
    req.authorization.Some? && StartsWith(req.authorization.value, BearerPrefix)
  }

  /** `requireAuth`'s credential: the second space-separated field of a header
      starting with "Bearer ", otherwise the session cookie. */
  function BearerOrCookie(req: Request): (token: Option<string>)
    ensures HasBearerHeader(req) ==>
              token == Field(req.authorization.value, Space, 1)
              && token.Some? && Space !in token.value
    ensures !HasBearerHeader(req) ==> token == SessionCookie(req)
  {
    if HasBearerHeader(req) then
      var h := req.authorization.value;
      assert h == "Bearer" + [Space] + h[|BearerPrefix|..];
      SecondField("Bearer", Space, h[|BearerPrefix|..]);
      Field(h, Space, 1)
    else SessionCookie(req)
  }

  /** A header "Bearer " + rest is the scheme, one space, then `rest`. */
  lemma BearerHeader(rest: string)
    ensures BearerPrefix + rest == "Bearer" + [Space] + rest
  {
  }

  /** The `requireAuth` middleware. */
  function RequireAuth(req: Request, verify: Verifier): (r: Outcome)
    ensures !Truthy(BearerOrCookie(req)) <==> r == NoToken
    ensures Truthy(BearerOrCookie(req)) ==>
              var token := BearerOrCookie(req).value;
              && (verify(token).Rejected? <==> r == InvalidToken)
              && (verify(token).Verified? <==> r.Next?)
    ensures r.Next? ==>
              && r.auth.token == BearerOrCookie(req).value
              && r.auth.token != ""
              && verify(r.auth.token) == Verified(Payload(r.auth.userId, r.auth.email))
              && r.auth.role.None?
    ensures r == NoToken || r == InvalidToken || r.Next?
  {
    var token := BearerOrCookie(req);
    if !Truthy(token) then NoToken
    else
      match verify(token.value)
      case Rejected(_) => InvalidToken
      case Verified(p) => Next(RecordOf(p, token.value))
  }

  /** Under a "Bearer " header the cookie is never consulted: requests that
      differ only in their cookies are treated alike. */
  lemma BearerIgnoresCookies(h: string, c1: Option<map<string, string>>, c2: Option<map<string, string>>, verify: Verifier)
    requires StartsWith(h, BearerPrefix)
    ensures RequireAuth(Request(Some(h), c1), verify) == RequireAuth(Request(Some(h), c2), verify)
  {
  }

  /** Without a "Bearer " header the header is never consulted: the token is
      the session cookie exactly as if no header had been sent. */
  lemma NonBearerUsesCookie(req: Request, verify: Verifier)
    requires !HasBearerHeader(req)
    ensures BearerOrCookie(req) == SessionCookie(req)
    ensures RequireAuth(req, verify) == RequireAuth(Request(None, req.cookies), verify)
  {
  }

  /** A "Bearer " header whose second field is empty ("Bearer ", or a double
      space after the scheme) is rejected as carrying no token, whatever the
      cookie holds. */
  lemma EmptyBearerFieldRejected(rest: string, cookies: Option<map<string, string>>, verify: Verifier)
    requires |rest| == 0 || rest[0] == Space
    ensures RequireAuth(Request(Some(BearerPrefix + rest), cookies), verify) == NoToken
  {
    BearerHeader(rest);
    SecondField("Bearer", Space, rest);
    if |rest| > 0 {
      SplitUnfold(rest, Space);
    }
  }

  /** Without a credential the verifier is not invoked: the outcome is the
      same for every verifier. */
  lemma NoTokenSkipsVerifier(req: Request, v1: Verifier, v2: Verifier)
    requires !Truthy(BearerOrCookie(req))
    ensures RequireAuth(req, v1) == RequireAuth(req, v2) == NoToken
  {
  }

  /** A header built as "Bearer " + t yields exactly t as the credential, for
      any t without spaces. */
  lemma BearerHeaderRoundTrip(t: string, cookies: Option<map<string, string>>)
    requires Space !in t
    ensures BearerOrCookie(Request(Some(BearerPrefix + t), cookies)) == Some(t)
  {
    BearerHeader(t);
    SecondField("Bearer", Space, t);
  }

  /** Errors `extractUser` throws. */
  datatype ExtractError =
    | NoTokenProvided           // `throw new Error("No token provided")`
    | CookiesUndefined          // TypeError reading `req.cookies["__session"]`
    | VerifierFailed(reason: string)  // the verifier's rejection, uncaught

  datatype ExtractResult = Extracted(rec: AuthRecord) | Thrown(error: ExtractError)

  /** Outcome of a JavaScript expression that may throw a TypeError. */
  datatype Attempt<T> = Ok(value: T) | Failed

  /** `req.headers.authorization?.split(" ")[1]`: the second space-separated
      field of the header, whatever its scheme. */
  function HeaderSecondField(req: Request): (f: Option<string>)
    ensures f.Some? <==> req.authorization.Some? && Space in req.authorization.value
    ensures f.Some? ==> Space !in f.value
  {
    if req.authorization.Some? then Field(req.authorization.value, Space, 1) else None
  }

  /** `extractUser`'s credential: the header's second field when truthy, else
      `req.cookies["__session"]`, which throws when `req.cookies` is absent. */
  function FieldOrCookie(req: Request): (token: Attempt<Option<string>>)
    ensures Truthy(HeaderSecondField(req)) ==> token == Ok(HeaderSecondField(req))
    ensures !Truthy(HeaderSecondField(req)) && req.cookies.Some? ==> token == Ok(SessionCookie(req))
    ensures token.Failed? <==> !Truthy(HeaderSecondField(req)) && req.cookies.None?
  {
    var field := HeaderSecondField(req);
    if Truthy(field) then Ok(field)
    else if req.cookies.None? then Failed
    else Ok(SessionCookie(req))
  }

  /** The `extractUser` helper. */
  function ExtractUser(req: Request, verify: Verifier): (r: ExtractResult)
    ensures r == Thrown(CookiesUndefined) <==> FieldOrCookie(req).Failed?
    ensures r == Thrown(NoTokenProvided) <==>
              FieldOrCookie(req).Ok? && !Truthy(FieldOrCookie(req).value)
    ensures r.Thrown? && r.error.VerifierFailed? ==>
              FieldOrCookie(req).Ok? && Truthy(FieldOrCookie(req).value)
              && verify(FieldOrCookie(req).value.value) == Rejected(r.error.reason)
    ensures r.Extracted? ==>
              && FieldOrCookie(req) == Ok(Some(r.rec.token))
              && r.rec.token != ""
              && verify(r.rec.token) == Verified(Payload(r.rec.userId, r.rec.email))
              && r.rec.role.None?
  {
    match FieldOrCookie(req)
    case Failed => Thrown(CookiesUndefined)
    case Ok(token) =>
      if !Truthy(token) then Thrown(NoTokenProvided)
      else
        match verify(token.value)
        case Rejected(reason) => Thrown(VerifierFailed(reason))
        case Verified(p) => Extracted(RecordOf(p, token.value))
  }

  /** Any non-empty second field is taken, whatever the scheme: "Basic abc"
      yields "abc", while `requireAuth` would fall back to the cookie. */
  lemma AnySchemeAccepted(scheme: string, t: string, cookies: Option<map<string, string>>)
    requires Space !in scheme && Space !in t && t != ""
    ensures FieldOrCookie(Request(Some(scheme + [Space] + t), cookies)) == Ok(Some(t))
  {
    SecondField(scheme, Space, t);
  }

  /** Where the two extractors part ways: for the header "Bearer " with a
      non-empty session cookie, `requireAuth` answers 401 while `extractUser`
      uses the cookie. */
  lemma EmptyBearerDivergence(cookies: map<string, string>, verify: Verifier)
    requires SessionCookieName in cookies && cookies[SessionCookieName] != ""
    ensures RequireAuth(Request(Some(BearerPrefix), Some(cookies)), verify) == NoToken
    ensures FieldOrCookie(Request(Some(BearerPrefix), Some(cookies))) == Ok(Some(cookies[SessionCookieName]))
  {
    var req := Request(Some(BearerPrefix), Some(cookies));
    BearerHeader([]);
    assert BearerPrefix + [] == BearerPrefix;
    SecondField("Bearer", Space, []);
    EmptyBearerFieldRejected([], req.cookies, verify);
  }

  /** On a well-formed bearer header the two extractors agree: same token,
      and the same record or the same kind of failure. */
  lemma ExtractorsAgreeOnBearer(t: string, cookies: Option<map<string, string>>, verify: Verifier)
    requires Space !in t && t != ""
    ensures var req := Request(Some(BearerPrefix + t), cookies);
            && BearerOrCookie(req) == Some(t)
            && FieldOrCookie(req) == Ok(Some(t))
            && (RequireAuth(req, verify).Next? <==> ExtractUser(req, verify).Extracted?)
            && (RequireAuth(req, verify).Next? ==>
                  RequireAuth(req, verify).auth == ExtractUser(req, verify).rec)
  {
    BearerHeaderRoundTrip(t, cookies);
  }
}

=== FILE: domain.dfy ===
/** Shared vocabulary of the billing dashboard: optional values, the persisted
    time entry and invoice records, and the hourly rate both the API report and
    the invoice form multiply durations by. */
module Domain {

  /** JavaScript's `undefined` / `null` versus a present value. */
  datatype Option<+T> = None | Some(value: T)

  /** JavaScript truthiness of an optional string: present and non-empty. */
  function Truthy(s: Option<string>): (b: bool)
    ensures s.None? ==> !b
    ensures s == Some("") ==> !b
    ensures s.Some? && |s.value| > 0 ==> b
  {
    s.Some? && s.value != ""
  }

  /** A TimeEntry row. `duration` is in hours, `date` is an instant (milliseconds
      since the epoch), `invoiceId` is the optional link to an invoice. */
  datatype TimeEntry = TimeEntry(
    id: string,
    description: string,
    duration: real,
    date: int,
    invoiceId: Option<string>)

  datatype InvoiceStatus = Unpaid | Paid | Overdue

  /** An Invoice row as the API returns it. */
  datatype Invoice = Invoice(
    id: string,
    client: string,
    amount: real,
    status: InvoiceStatus,
    createdAt: int)

  /** Euros charged per hour of work. */
  const HourlyRate: real := 150.0

  /** The suggested price of one entry: its duration at the hourly rate. */
  function SuggestedAmount(e: TimeEntry): (amount: real)
    ensures e.duration >= 0.0 ==> amount >= 0.0
    ensures e.duration == 0.0 <==> amount == 0.0
  {
    e.duration * HourlyRate
  }
}

=== FILE: invoice_form.dfy ===
/** The decision logic of the new-invoice form: the selection toggle, the
    running total of the selected entries, and `createInvoice`'s guard, request
    body and post-response state. Rendering and the fetch of unbilled entries
    are outside this model. */
module InvoiceForm {

  import opened Domain
  import Text
  import Auth

  /** Every occurrence of `id` filtered out, the others kept in order. */
  function Remove(ids: seq<string>, id: string): (r: seq<string>)
    ensures forall x :: x in r <==> x in ids && x != id
    ensures forall x :: x != id ==> multiset(r)[x] == multiset(ids)[x]
    ensures id !in ids ==> r == ids
  {
    if |ids| == 0 then []
    else
      assert ids == [ids[0]] + ids[1..];
      (if ids[0] == id then [] else [ids[0]]) + Remove(ids[1..], id)
  }

  /** Filtering distributes over concatenation, so the relative order of the
      kept ids is the order they had. */
  lemma {:induction false} RemoveAppend(a: seq<string>, b: seq<string>, id: string)
    ensures Remove(a + b, id) == Remove(a, id) + Remove(b, id)
  {
    if |a| == 0 {
      assert a + b == b;
    } else {
      var head := if a[0] == id then [] else [a[0]];
      calc {
        Remove(a + b, id);
        { assert (a + b)[0] == a[0]; }
        head + Remove((a + b)[1..], id);
        { assert (a + b)[1..] == a[1..] + b; }
        head + Remove(a[1..] + b, id);
        { RemoveAppend(a[1..], b, id); }
        head + (Remove(a[1..], id) + Remove(b, id));
        Remove(a, id) + Remove(b, id);
      }
    }
  }

  /** `toggleEntry(id)`: drop `id` if selected, otherwise append it. */
  function Toggle(selected: seq<string>, id: string): (next: seq<string>)
    ensures forall x :: x in next <==> (x in selected) != (x == id)
    ensures id !in selected ==> next == selected + [id]
    ensures id in selected ==> next == Remove(selected, id)
  {
    if id in selected then Remove(selected, id) else selected + [id]
  }

  predicate Distinct(ids: seq<string>) {
    forall i, j :: 0 <= i < j < |ids| ==> ids[i] != ids[j]
  }

  lemma {:induction false} RemovePreservesDistinct(ids: seq<string>, id: string)
    requires Distinct(ids)
    ensures Distinct(Remove(ids, id))
  {
    if |ids| > 0 {
      RemovePreservesDistinct(ids[1..], id);
      assert ids[0] !in ids[1..];
    }
  }

  /** A duplicate-free selection stays duplicate-free under any toggle. */
  lemma ToggleKeepsDistinct(selected: seq<string>, id: string)
    requires Distinct(selected)
    ensures Distinct(Toggle(selected, id))
  {
    if id in selected {
      RemovePreservesDistinct(selected, id);
    }
  }

  /** Toggling an unselected id twice restores the selection. */
  lemma ToggleTwiceRestores(selected: seq<string>, id: string)
    requires id !in selected
    ensures Toggle(Toggle(selected, id), id) == selected
  {
    RemoveAppend(selected, [id], id);
  }

  /** Toggling a selected id twice moves it to the end of the selection. */
  lemma ToggleTwiceMovesToEnd(selected: seq<string>, id: string)
    requires id in selected
    ensures Toggle(Toggle(selected, id), id) == Remove(selected, id) + [id]
  {
  }

  /** `entries.filter((e) => selectedIds.includes(e.id))`. */
  function SelectedEntries(entries: seq<TimeEntry>, selected: seq<string>): (r: seq<TimeEntry>)
    ensures forall e :: e in r <==> e in entries && e.id in selected
    ensures forall e: TimeEntry :: e.id in selected ==> multiset(r)[e] == multiset(entries)[e]
    ensures forall e: TimeEntry :: e.id !in selected ==> multiset(r)[e] == 0
    ensures |r| <= |entries|
  {
    if |entries| == 0 then []
    else
      assert entries == [entries[0]] + entries[1..];
      (if entries[0].id in selected then [entries[0]] else []) + SelectedEntries(entries[1..], selected)
  }

  /** The filter's step over a first entry. */
  lemma SelectedEntriesCons(x: TimeEntry, rest: seq<TimeEntry>, selected: seq<string>)
    ensures SelectedEntries([x] + rest, selected)
            == (if x.id in selected then [x] else []) + SelectedEntries(rest, selected)
  {
    assert ([x] + rest)[0] == x && ([x] + rest)[1..] == rest;
  }

  /** The filter distributes over concatenation, so the kept entries keep
      their relative order. */
  lemma {:induction false} SelectedEntriesAppend(a: seq<TimeEntry>, b: seq<TimeEntry>, selected: seq<string>)
    ensures SelectedEntries(a + b, selected) == SelectedEntries(a, selected) + SelectedEntries(b, selected)
  {
    if |a| == 0 {
      assert a + b == b;
    } else {
      var x, tail := a[0], a[1..];
      var head := if x.id in selected then [x] else [];
      calc {
        SelectedEntries(a + b, selected);
        { assert a + b == [x] + (tail + b); }
        SelectedEntries([x] + (tail + b), selected);
        { SelectedEntriesCons(x, tail + b, selected); }
        head + SelectedEntries(tail + b, selected);
        { SelectedEntriesAppend(tail, b, selected); }
        head + (SelectedEntries(tail, selected) + SelectedEntries(b, selected));
        (head + SelectedEntries(tail, selected)) + SelectedEntries(b, selected);
        SelectedEntries(a, selected) + SelectedEntries(b, selected);
      }
    }
  }

  /** The priced sum of `es`, as `.reduce((sum, e) => sum + e.duration * 150, 0)`
      computes it; `SubtotalLeftFold` shows it takes the reduce's steps. */
  function Subtotal(es: seq<TimeEntry>): (total: real)
    ensures |es| == 0 ==> total == 0.0
    ensures (forall k :: 0 <= k < |es| ==> es[k].duration >= 0.0) ==> total >= 0.0
  {
    if |es| == 0 then 0.0
    else
      assert forall k :: 0 <= k < |es[1..]| ==> es[1..][k] == es[k + 1];
      SuggestedAmount(es[0]) + Subtotal(es[1..])
  }

  /** One step of the reduce: appending an entry adds its price. */
  lemma {:induction false} SubtotalLeftFold(es: seq<TimeEntry>, e: TimeEntry)
    ensures Subtotal(es + [e]) == Subtotal(es) + SuggestedAmount(e)
  {
    if |es| == 0 {
      assert es + [e] == [e];
      assert [e][1..] == [];
    } else {
      assert (es + [e])[0] == es[0];
      assert (es + [e])[1..] == es[1..] + [e];
      SubtotalLeftFold(es[1..], e);
    }
  }

  /** `totalAmount`: the price of the loaded entries whose id is selected. */
  function TotalAmount(entries: seq<TimeEntry>, selected: seq<string>): (total: real)
    ensures |selected| == 0 ==> total == 0.0
    ensures (forall k :: 0 <= k < |entries| ==> entries[k].duration >= 0.0) ==> total >= 0.0
  {
    var chosen := SelectedEntries(entries, selected);
    assert forall k :: 0 <= k < |chosen| ==> chosen[k] in entries;
    Subtotal(chosen)
  }

  /** `totalAmount` entry by entry: the first loaded entry adds its duration at
      the hourly rate exactly when its id is selected. */
  lemma TotalUnfold(entries: seq<TimeEntry>, selected: seq<string>)
    requires |entries| > 0
    ensures TotalAmount(entries, selected)
            == (if entries[0].id in selected then SuggestedAmount(entries[0]) else 0.0)
               + TotalAmount(entries[1..], selected)
  {
    var rest := SelectedEntries(entries[1..], selected);
    if entries[0].id in selected {
      assert ([entries[0]] + rest)[0] == entries[0];
      assert ([entries[0]] + rest)[1..] == rest;
    } else {
      assert [] + rest == rest;
    }
  }

  /** The total depends only on which loaded entries are selected: order,
      duplicates and ids with no loaded entry do not matter. */
  lemma {:induction false} TotalRespectsMembership(entries: seq<TimeEntry>, s1: seq<string>, s2: seq<string>)
    requires forall k :: 0 <= k < |entries| ==> (entries[k].id in s1 <==> entries[k].id in s2)
    ensures TotalAmount(entries, s1) == TotalAmount(entries, s2)
  {
    if |entries| > 0 {
      TotalRespectsMembership(entries[1..], s1, s2);
      TotalUnfold(entries, s1);
      TotalUnfold(entries, s2);
    }
  }

  /** Hours booked under one id among the loaded entries, priced. */
  function PriceOf(entries: seq<TimeEntry>, id: string): real {
    Subtotal(SelectedEntries(entries, [id]))
  }

  lemma {:induction false} TotalAddsId(entries: seq<TimeEntry>, selected: seq<string>, id: string)
    requires id !in selected
    ensures TotalAmount(entries, selected + [id]) == TotalAmount(entries, selected) + PriceOf(entries, id)
  {
    if |entries| > 0 {
      TotalAddsId(entries[1..], selected, id);
      TotalUnfold(entries, selected + [id]);
      TotalUnfold(entries, selected);
      TotalUnfold(entries, [id]);
    }
  }

  /** Toggling an id on adds the price of its loaded entries to the total;
      toggling it off takes that price away again. */
  lemma {:induction false} ToggleChangesTotal(entries: seq<TimeEntry>, selected: seq<string>, id: string)
    ensures id !in selected ==>
              TotalAmount(entries, Toggle(selected, id)) == TotalAmount(entries, selected) + PriceOf(entries, id)
    ensures id in selected ==>
              TotalAmount(entries, Toggle(selected, id)) == TotalAmount(entries, selected) - PriceOf(entries, id)
  {
    if id !in selected {
      TotalAddsId(entries, selected, id);
    } else {
      var removed := Remove(selected, id);
      TotalAddsId(entries, removed, id);
      TotalRespectsMembership(entries, removed + [id], selected);
    }
  }

  /** A selected id with no loaded entry adds nothing to the total. */
  lemma UnloadedIdAddsNothing(entries: seq<TimeEntry>, selected: seq<string>, id: string)
    requires forall k :: 0 <= k < |entries| ==> entries[k].id != id
    ensures TotalAmount(entries, selected + [id]) == TotalAmount(entries, selected)
  {
    TotalRespectsMembership(entries, selected + [id], selected);
  }

  /** The form's state: the client field, the selection and the busy flag. */
  datatype FormState = FormState(client: string, selectedIds: seq<string>, loading: bool)

  /** The POST /invoices request: its Authorization header and JSON body. */
  datatype InvoiceRequest = InvoiceRequest(
    authorization: string,
    client: string,
    amount: real,
    timeEntryIds: seq<string>)

  /** How the POST ended: the network call failed, or a status arrived with a
      body that `res.json()` parsed (`Some`) or failed to parse (`None`). The
      form never checks the parsed value's shape; it is abstracted as the
      invoice the server is meant to return. */
  datatype Reply = NetworkFailure | Reply(status: int, body: Option<Invoice>)

  /** `res.ok`. */
  function IsOk(reply: Reply): (b: bool)
    ensures reply.NetworkFailure? ==> !b
    ensures reply.Reply? ==> (b <==> 200 <= reply.status < 300)
  {
    reply.Reply? && 200 <= reply.status <= 299
  }

  /** `createInvoice`'s guard and request: nothing is sent without a client,
      a selection and a token. */
  function InvoiceRequestFor(state: FormState, entries: seq<TimeEntry>, token: Option<string>): (req: Option<InvoiceRequest>)
    ensures req.None? <==> state.client == "" || |state.selectedIds| == 0 || !Truthy(token)
    ensures req.Some? ==>
              && req.value.client == state.client
              && req.value.amount == TotalAmount(entries, state.selectedIds)
              && req.value.timeEntryIds == state.selectedIds
              && req.value.authorization == Auth.BearerPrefix + token.value
  {
    if state.client == "" || |state.selectedIds| == 0 || !Truthy(token) then None
    else Some(InvoiceRequest(Auth.BearerPrefix + token.value, state.client,
                             TotalAmount(entries, state.selectedIds), state.selectedIds))
  }

  /** The result of one `createInvoice` call: the state after it, the request
      sent (if any) and the invoice handed to `onCreated` (if any). */
  datatype Submission = Submission(state: FormState, sent: Option<InvoiceRequest>, created: Option<Invoice>)

  /** `createInvoice`, given how the server replies and whether `onCreated`
      (the caller's callback) returns normally. The parsed reply is handed to
      `onCreated` before the reset, inside the same `try`: a callback that
      throws skips the reset, and `finally` still turns loading off. */
  function CreateInvoice(state: FormState, entries: seq<TimeEntry>, token: Option<string>, reply: Reply,
                         callbackReturns: bool): (r: Submission)
    ensures r.sent == InvoiceRequestFor(state, entries, token)
    ensures r.sent.None? ==> r.state == state && r.created.None?
    ensures r.sent.Some? ==> !r.state.loading
    ensures r.created.Some? <==> r.sent.Some? && IsOk(reply) && reply.body.Some?
    ensures r.created.Some? ==> r.created == reply.body
    ensures r.created.Some? && callbackReturns ==> r.state.client == "" && r.state.selectedIds == []
    ensures r.sent.Some? && !(r.created.Some? && callbackReturns) ==>
              r.state.client == state.client && r.state.selectedIds == state.selectedIds
  {
    var sent := InvoiceRequestFor(state, entries, token);
    if sent.None? then Submission(state, None, None)
    else if IsOk(reply) && reply.body.Some? then
      if callbackReturns then Submission(FormState("", [], false), sent, reply.body)
      else Submission(state.(loading := false), sent, reply.body)
    else
      Submission(state.(loading := false), sent, None)
  }

  /** The header the form sends carries its token to `requireAuth` intact,
      provided the token has no space in it. */
  lemma SentHeaderCarriesToken(state: FormState, entries: seq<TimeEntry>, token: Option<string>,
                               cookies: Option<map<string, string>>)
    requires InvoiceRequestFor(state, entries, token).Some?
    requires Text.Space !in token.value
    ensures Auth.BearerOrCookie(Auth.Request(Some(InvoiceRequestFor(state, entries, token).value.authorization), cookies))
            == token
  {
    Auth.BearerHeaderRoundTrip(token.value, cookies);
  }

  /** After a successful submission whose callback returned, the form is
      cleared, so pressing the button again sends nothing. */
  lemma NoResubmitAfterSuccess(state: FormState, entries: seq<TimeEntry>, token: Option<string>, reply: Reply)
    requires CreateInvoice(state, entries, token, reply, true).created.Some?
    ensures InvoiceRequestFor(CreateInvoice(state, entries, token, reply, true).state, entries, token).None?
  {
  }

  /** After a failed submission, or one whose callback threw, the form keeps
      client and selection, so pressing the button again sends the very same
      request. */
  lemma RetryAfterFailureResends(state: FormState, entries: seq<TimeEntry>, token: Option<string>, reply: Reply,
                                 callbackReturns: bool)
    requires CreateInvoice(state, entries, token, reply, callbackReturns).sent.Some?
    requires !(CreateInvoice(state, entries, token, reply, callbackReturns).created.Some? && callbackReturns)
    ensures InvoiceRequestFor(CreateInvoice(state, entries, token, reply, callbackReturns).state, entries, token)
            == CreateInvoice(state, entries, token, reply, callbackReturns).sent
  {
  }

  /** A created invoice whose callback throws leaves the form filled in: the
      invoice was handed over, and the next press posts the same invoice again. */
  lemma ThrowingCallbackResends(state: FormState, entries: seq<TimeEntry>, token: Option<string>, reply: Reply)
    requires InvoiceRequestFor(state, entries, token).Some?
    requires IsOk(reply) && reply.body.Some?
    ensures CreateInvoice(state, entries, token, reply, false).created == reply.body
    ensures InvoiceRequestFor(CreateInvoice(state, entries, token, reply, false).state, entries, token)
            == InvoiceRequestFor(state, entries, token)
  {
  }
}

=== FILE: rbac.dfy ===
/** The role gate `requireRole(allowedRoles)` and its place behind
    `requireAuth` in a middleware chain. */
module Rbac {

  import opened Domain
  import opened Auth

  const NotAuthenticated: Outcome := Respond(401, Message("Not authenticated"))
  const InsufficientRole: string := "Insufficient role permissions"

  /** `allowedRoles.includes(role)`: an absent role matches no role string. */
  predicate Permits(allowedRoles: seq<string>, role: Option<string>): (ok: bool)
    ensures ok <==> exists i :: 0 <= i < |allowedRoles| && role == Some(allowedRoles[i])
  {
    role.Some? && role.value in allowedRoles
  }

  /** The middleware `requireRole(allowedRoles)` applied to `req.auth`. */
  function RequireRole(allowedRoles: seq<string>, auth: Option<AuthRecord>): (r: Outcome)
    ensures auth.None? <==> r == NotAuthenticated
    ensures auth.Some? ==> (r.Next? <==> Permits(allowedRoles, auth.value.role))
    ensures r.Next? ==> auth == Some(r.auth)
    ensures auth.Some? && !Permits(allowedRoles, auth.value.role) ==>
              r == Respond(403, RoleDenial(InsufficientRole, allowedRoles, auth.value.role))
  {
    if auth.None? then NotAuthenticated
    else if !Permits(allowedRoles, auth.value.role) then
      Respond(403, RoleDenial(InsufficientRole, allowedRoles, auth.value.role))
    else Next(auth.value)
  }

  /** The gate answers 401, answers 403, or passes — never anything else. */
  lemma RequireRoleOutcomes(allowedRoles: seq<string>, auth: Option<AuthRecord>)
    ensures var r := RequireRole(allowedRoles, auth);
            || r == NotAuthenticated
            || (r.Respond? && r.status == 403 && r.body.RoleDenial?
                && r.body.requiredRoles == allowedRoles)
            || r.Next?
  {
  }

  /** With no allowed roles the gate passes nobody. */
  lemma EmptyRolesDenyAll(auth: Option<AuthRecord>)
    ensures !RequireRole([], auth).Next?
  {
  }

  /** Widening the allowed list never locks out a role that passed. */
  lemma RoleGateMonotonic(small: seq<string>, large: seq<string>, auth: Option<AuthRecord>)
    requires forall x :: x in small ==> x in large
    requires RequireRole(small, auth).Next?
    ensures RequireRole(large, auth) == RequireRole(small, auth)
  {
  }

  /** `requireAuth` followed by `requireRole(allowedRoles)` on one route: the
      gate runs only when authentication called `next()`. */
  function Guarded(req: Request, verify: Verifier, allowedRoles: seq<string>): (r: Outcome)
    ensures RequireAuth(req, verify).Respond? ==> r == RequireAuth(req, verify)
    ensures RequireAuth(req, verify).Next? ==> r == RequireRole(allowedRoles, Some(RequireAuth(req, verify).auth))
  {
    match RequireAuth(req, verify)
    case Respond(status, body) => Respond(status, body)
    case Next(rec) => RequireRole(allowedRoles, Some(rec))
  }

  /** The record `requireAuth` builds carries no role, so behind it the gate
      refuses every request: whoever authenticates gets 403 with no role
      reported, whoever does not keeps the 401. */
  lemma GateRejectsEveryAuthenticatedRequest(req: Request, verify: Verifier, allowedRoles: seq<string>)
    ensures !Guarded(req, verify, allowedRoles).Next?
    ensures RequireAuth(req, verify).Next? ==>
              Guarded(req, verify, allowedRoles) == Respond(403, RoleDenial(InsufficientRole, allowedRoles, None))
    ensures RequireAuth(req, verify).Respond? ==> Guarded(req, verify, allowedRoles).status == 401
  {
  }
}

=== FILE: text.dfy ===
/** The JavaScript string operations the credential extractors rely on:
    `String.prototype.split` with a one-character separator, its inverse
    `Array.prototype.join`, and `String.prototype.startsWith`. */
module Text {

  import opened Domain

  const Space: char := ' '

  /** JavaScript's `startsWith`: `s` begins with `prefix` character by
      character, and is then `prefix` followed by the rest of `s`. */
  function StartsWith(s: string, prefix: string): (b: bool)
    ensures b <==> |prefix| <= |s| && forall i :: 0 <= i < |prefix| ==> s[i] == prefix[i]
    ensures b ==> s == prefix + s[|prefix|..]
  {
    |prefix| <= |s| && s[..|prefix|] == prefix
  }

  /** Index of the first occurrence of `sep` in `s`. */
  function IndexOf(s: string, sep: char): (i: nat)
    requires sep in s
    ensures i < |s| && s[i] == sep
    ensures forall j :: 0 <= j < i ==> s[j] != sep
  {
    if s[0] == sep then 0 else 1 + IndexOf(s[1..], sep)
  }

  /** `s.split(sep)`: the maximal separator-free pieces of `s`, in order. */
  function Split(s: string, sep: char): (fields: seq<string>)
    ensures |fields| >= 1
    ensures forall k :: 0 <= k < |fields| ==> sep !in fields[k]
    ensures |fields| == 1 <==> sep !in s
    decreases |s|
  {
    if sep !in s then [s]
    else
      var i := IndexOf(s, sep);
      assert sep !in s[..i] by {
        forall j | 0 <= j < i ensures s[..i][j] != sep { }
      }
      [s[..i]] + Split(s[i + 1..], sep)
  }

  /** `fields.join(sep)`. */
  function Join(fields: seq<string>, sep: char): string
    requires |fields| >= 1
  {
    if |fields| == 1 then fields[0] else fields[0] + [sep] + Join(fields[1..], sep)
  }

  /** `s.split(sep)[k]`: the k-th piece, or `undefined` past the last one. */
  function Field(s: string, sep: char, k: nat): (f: Option<string>)
    ensures f.Some? <==> k < |Split(s, sep)|
    ensures f.Some? ==> sep !in f.value
  {
    var fields := Split(s, sep);
    if k < |fields| then Some(fields[k]) else None
  }

  /** Splitting at a first separator peels off the text before it. */
  lemma {:induction false} SplitAfterFirst(a: string, sep: char, b: string)
    requires sep !in a
    ensures Split(a + [sep] + b, sep) == [a] + Split(b, sep)
  {
    var s := a + [sep] + b;
    assert s[|a|] == sep;
    var i := IndexOf(s, sep);
    assert i == |a|;
    assert s[..i] == a;
    assert s[i + 1..] == b;
  }

  /** Joining a piece in front of at least one more adds a separator between. */
  lemma JoinCons(a: string, rest: seq<string>, sep: char)
    requires |rest| >= 1
    ensures Join([a] + rest, sep) == a + [sep] + Join(rest, sep)
  {
  }

  /** One step of `Split` at the first separator. */
  lemma SplitUnfold(s: string, sep: char)
    requires sep in s
    ensures var i := IndexOf(s, sep);
            Split(s, sep) == [s[..i]] + Split(s[i + 1..], sep)
  {
  }

  lemma SplitAround(s: string, i: nat)
    requires i < |s|
    ensures s == s[..i] + [s[i]] + s[i + 1..]
  {
  }

  /** Joining the pieces of a split gives back the original string. */
  lemma {:induction false} JoinSplit(s: string, sep: char)
    ensures Join(Split(s, sep), sep) == s
    decreases |s|
  {
    if sep in s {
      var i := IndexOf(s, sep);
      var a, b := s[..i], s[i + 1..];
      var rest := Split(b, sep);
      SplitUnfold(s, sep);
      JoinCons(a, rest, sep);
      JoinSplit(b, sep);
      SplitAround(s, i);
    }
  }

  /** Splitting a join of separator-free pieces gives back the pieces. */
  lemma {:induction false} SplitJoin(fields: seq<string>, sep: char)
    requires |fields| >= 1
    requires forall k :: 0 <= k < |fields| ==> sep !in fields[k]
    ensures Split(Join(fields, sep), sep) == fields
    decreases |fields|
  {
    if |fields| > 1 {
      SplitJoin(fields[1..], sep);
      SplitAfterFirst(fields[0], sep, Join(fields[1..], sep));
      assert fields == [fields[0]] + fields[1..];
    }
  }

  /** The second piece of `a + sep + b`, for separator-free `a`, is the text of
      `b` up to its own first separator, or all of `b` when it has none. */
  lemma {:induction false} SecondField(a: string, sep: char, b: string)
    requires sep !in a
    ensures Field(a + [sep] + b, sep, 1) == Some(Split(b, sep)[0])
    ensures sep !in b ==> Field(a + [sep] + b, sep, 1) == Some(b)
  {
    SplitAfterFirst(a, sep, b);
  }
}

=== FILE: unbilled.dfy ===
/** The `/unbilled` and `/unbilled-report` endpoints: the entries with no
    linked invoice, newest first, and the per-entry report with a suggested
    invoice amount. The database is reduced to the rows it holds, or a
    failure. */
module Unbilled {

  import opened Domain

  /** `invoiceId: null`: the entry is linked to no invoice. */
  function IsUnbilled(e: TimeEntry): (b: bool)
    ensures b ==> e.invoiceId == None
  {
    e.invoiceId.None?
  }

  /** The `where: { invoiceId: null }` filter, keeping the stored order. */
  function UnbilledOf(rows: seq<TimeEntry>): (r: seq<TimeEntry>)
    ensures forall k :: 0 <= k < |r| ==> IsUnbilled(r[k])
    ensures forall e :: IsUnbilled(e) ==> multiset(r)[e] == multiset(rows)[e]
    ensures forall e :: !IsUnbilled(e) ==> multiset(r)[e] == 0
  {
    if |rows| == 0 then []
    else
      assert rows == [rows[0]] + rows[1..];
      (if IsUnbilled(rows[0]) then [rows[0]] else []) + UnbilledOf(rows[1..])
  }

  /** The `orderBy: { date: "desc" }` order. */
  function NewestFirst(es: seq<TimeEntry>): (b: bool)
    ensures b ==> forall k :: 0 <= k < |es| - 1 ==> es[k].date >= es[k + 1].date
    ensures |es| <= 1 ==> b
  {
    forall i, j :: 0 <= i < j < |es| ==> es[i].date >= es[j].date
  }

  /** The converse of `NewestFirst`'s contract: a list whose neighbours are in
      date-descending order is newest first throughout. */
  lemma {:induction false} AdjacentNewestFirst(es: seq<TimeEntry>)
    requires forall k :: 0 <= k < |es| - 1 ==> es[k].date >= es[k + 1].date
    ensures NewestFirst(es)
  {
    if |es| > 1 {
      var tail := es[1..];
      AdjacentNewestFirst(tail);
      forall i, j | 0 <= i < j < |es| ensures es[i].date >= es[j].date {
        assert es[j] == tail[j - 1];
        if i > 0 {
          assert es[i] == tail[i - 1];
        } else if j > 1 {
          assert es[1] == tail[0];
        }
      }
    }
  }

  /** What the query promises: exactly the unbilled rows, with multiplicity,
      newest first. The order among entries of equal date is unspecified. */
  function IsUnbilledListing(rows: seq<TimeEntry>, listing: seq<TimeEntry>): (b: bool)
    ensures b ==> NewestFirst(listing) && |listing| == |UnbilledOf(rows)|
    ensures b ==> forall e :: e in listing ==> IsUnbilled(e)
  {
    NewestFirst(listing) && multiset(listing) == multiset(UnbilledOf(rows))
  }

  /** Places `e` before the first entry strictly older than it. */
  function Insert(e: TimeEntry, sorted: seq<TimeEntry>): (r: seq<TimeEntry>)
    requires NewestFirst(sorted)
    ensures NewestFirst(r)
    ensures multiset(r) == multiset(sorted) + multiset{e}
    ensures |r| > 0 && (r[0] == e || (|sorted| > 0 && r[0] == sorted[0]))
  {
    if |sorted| == 0 || e.date >= sorted[0].date then [e] + sorted
    else
      var rest := Insert(e, sorted[1..]);
      assert sorted == [sorted[0]] + sorted[1..];
      [sorted[0]] + rest
  }

  /** Orders entries newest first. */
  function SortNewestFirst(es: seq<TimeEntry>): (r: seq<TimeEntry>)
    ensures NewestFirst(r)
    ensures multiset(r) == multiset(es)
  {
    if |es| == 0 then []
    else
      assert es == [es[0]] + es[1..];
      Insert(es[0], SortNewestFirst(es[1..]))
  }

  /** The database query both endpoints issue. */
  function UnbilledListing(rows: seq<TimeEntry>): (listing: seq<TimeEntry>)
    ensures IsUnbilledListing(rows, listing)
  {
    SortNewestFirst(UnbilledOf(rows))
  }

  /** Every listing the query may return holds only unbilled entries and
      every unbilled row, as often as it is stored. */
  lemma ListingContents(rows: seq<TimeEntry>, listing: seq<TimeEntry>)
    requires IsUnbilledListing(rows, listing)
    ensures forall k :: 0 <= k < |listing| ==> IsUnbilled(listing[k])
    ensures forall k :: 0 <= k < |rows| && IsUnbilled(rows[k]) ==> rows[k] in listing
    ensures |listing| <= |rows|
  {
    var u := UnbilledOf(rows);
    forall k | 0 <= k < |listing| ensures IsUnbilled(listing[k]) {
      assert listing[k] in multiset(u);
    }
    forall k | 0 <= k < |rows| && IsUnbilled(rows[k]) ensures rows[k] in listing {
      assert rows[k] in multiset(rows);
      assert multiset(u)[rows[k]] == multiset(rows)[rows[k]];
    }
    assert |listing| == |multiset(listing)| == |u|;
    UnbilledShorter(rows);
  }

  lemma {:induction false} UnbilledShorter(rows: seq<TimeEntry>)
    ensures |UnbilledOf(rows)| <= |rows|
  {
    if |rows| > 0 {
      UnbilledShorter(rows[1..]);
    }
  }

  /** The warning text of a report item; its wording and the `toFixed(2)` and
      locale date formatting are not modelled, only what it quotes. */
  datatype Recommendation = Recommendation(description: string, date: int, amount: real)

  datatype ReportItem = ReportItem(
    id: string,
    description: string,
    duration: real,
    date: int,
    suggestedInvoiceAmount: real,
    recommendation: Recommendation)

  /** The report line of one entry. */
  function ReportItemOf(e: TimeEntry): (item: ReportItem)
    ensures item.id == e.id && item.description == e.description
    ensures item.duration == e.duration && item.date == e.date
    ensures item.suggestedInvoiceAmount == e.duration * HourlyRate
    ensures item.recommendation ==
              Recommendation(e.description, e.date, item.suggestedInvoiceAmount)
  {
    var amount := SuggestedAmount(e);
    ReportItem(e.id, e.description, e.duration, e.date, amount,
               Recommendation(e.description, e.date, amount))
  }

  /** `entries.map(...)`: one report line per entry, in the same order. */
  function Report(es: seq<TimeEntry>): (report: seq<ReportItem>)
    ensures |report| == |es|
    ensures forall k :: 0 <= k < |es| ==> report[k] == ReportItemOf(es[k])
  {
    if |es| == 0 then [] else [ReportItemOf(es[0])] + Report(es[1..])
  }

  /** What the database answers: the stored rows, or a failure. */
  datatype StoreReply = Rows(rows: seq<TimeEntry>) | StoreFailure

  /** An endpoint's answer: 200 with a JSON body, or 500 with an error. */
  datatype Response<T> = Ok(body: T) | ServerError(status: nat, error: string)

  const InternalServerError: string := "Internal Server Error"

  /** `GET /unbilled`. */
  function GetUnbilled(store: StoreReply): (r: Response<seq<TimeEntry>>)
    ensures store.StoreFailure? <==> r == ServerError(500, InternalServerError)
    ensures store.Rows? <==> r.Ok?
    ensures r.Ok? ==> IsUnbilledListing(store.rows, r.body)
  {
    match store
    case StoreFailure => ServerError(500, InternalServerError)
    case Rows(rows) => Ok(UnbilledListing(rows))
  }

  /** `GET /unbilled-report`. */
  function GetUnbilledReport(store: StoreReply): (r: Response<seq<ReportItem>>)
    ensures store.StoreFailure? <==> r == ServerError(500, InternalServerError)
    ensures store.Rows? <==> r.Ok?
    ensures r.Ok? ==> exists listing :: IsUnbilledListing(store.rows, listing) && r.body == Report(listing)
  {
    match store
    case StoreFailure => ServerError(500, InternalServerError)
    case Rows(rows) => Ok(Report(UnbilledListing(rows)))
  }

  /** `s` without its element at index `j`. */
  function RemoveAt(s: seq<TimeEntry>, j: nat): (r: seq<TimeEntry>)
    requires j < |s|
    ensures |r| == |s| - 1
    ensures forall k :: 0 <= k < j ==> r[k] == s[k]
    ensures forall k :: j <= k < |r| ==> r[k] == s[k + 1]
  {
    s[..j] + s[j + 1..]
  }

  lemma RemoveAtMultiset(s: seq<TimeEntry>, j: nat)
    requires j < |s|
    ensures multiset(RemoveAt(s, j)) == multiset(s) - multiset{s[j]}
  {
    assert s == s[..j] + [s[j]] + s[j + 1..];
  }

  /** `Report` distributes over concatenation. */
  lemma ReportAppend(a: seq<TimeEntry>, b: seq<TimeEntry>)
    ensures Report(a + b) == Report(a) + Report(b)
  {
  }

  /** The report of a list holds the line of its `j`-th entry plus the lines
      of the other entries. */
  lemma ReportSplitAt(s: seq<TimeEntry>, j: nat)
    requires j < |s|
    ensures multiset(Report(s)) == multiset(Report(RemoveAt(s, j))) + multiset{ReportItemOf(s[j])}
  {
    var x, a, b := s[j], s[..j], s[j + 1..];
    AroundIndex(s, j);
    ReportAppend(a + [x], b);
    ReportAppend(a, [x]);
    ReportAppend(a, b);
    assert Report([x]) == [ReportItemOf(x)];
    MultisetMiddle(Report(a), ReportItemOf(x), Report(b));
  }

  /** Taking one item out of the middle of a list leaves the multiset of
      the rest. */
  lemma MultisetMiddle(a: seq<ReportItem>, item: ReportItem, b: seq<ReportItem>)
    ensures multiset(a + [item] + b) == multiset(a + b) + multiset{item}
  {
  }

  /** A list is the part before index `j`, the entry at `j`, and the rest. */
  lemma AroundIndex(s: seq<TimeEntry>, j: nat)
    requires j < |s|
    ensures s == s[..j] + [s[j]] + s[j + 1..]
    ensures RemoveAt(s, j) == s[..j] + s[j + 1..]
  {
  }

  lemma RemoveAtSorted(s: seq<TimeEntry>, j: nat)
    requires NewestFirst(s) && j < |s|
    ensures NewestFirst(RemoveAt(s, j))
  {
  }

  lemma RemoveFirst(s: seq<TimeEntry>)
    requires |s| > 0
    ensures RemoveAt(s, 0) == s[1..]
    ensures multiset(s[1..]) == multiset(s) - multiset{s[0]}
  {
    RemoveAtMultiset(s, 0);
  }

  /** Reports of two orderings of the same entries hold the same lines. */
  lemma {:induction false} ReportPermutation(l1: seq<TimeEntry>, l2: seq<TimeEntry>)
    requires multiset(l1) == multiset(l2)
    ensures multiset(Report(l1)) == multiset(Report(l2))
    decreases |l1|
  {
    if |l1| == 0 {
      assert |l2| == |multiset(l2)| == 0;
    } else {
      var e := l1[0];
      assert e in multiset(l2);
      var j :| 0 <= j < |l2| && l2[j] == e;
      RemoveAtMultiset(l2, j);
      RemoveFirst(l1);
      ReportPermutation(l1[1..], RemoveAt(l2, j));
      ReportSplitAt(l2, j);
      ReportSplitAt(l1, 0);
    }
  }

  /** Two newest-first orderings of the same non-empty entries start with the
      same date. */
  lemma FirstDatesAgree(l1: seq<TimeEntry>, l2: seq<TimeEntry>)
    requires NewestFirst(l1) && NewestFirst(l2) && multiset(l1) == multiset(l2)
    requires |l1| > 0 && |l2| > 0
    ensures l1[0].date == l2[0].date
  {
    assert l2[0] in multiset(l1);
    assert l1[0] in multiset(l2);
  }

  /** Removing an entry from the run of entries sharing the first date shifts
      the dates after it by one position and changes none of them. */
  lemma DatesAfterRemoval(s: seq<TimeEntry>, j: nat)
    requires NewestFirst(s) && j < |s| && s[0].date == s[j].date
    ensures forall k :: 1 <= k < |s| ==> RemoveAt(s, j)[k - 1].date == s[k].date
  {
  }

  /** Two newest-first orderings of the same entries agree on the date at
      every position; they can differ only among entries sharing a date. */
  lemma {:induction false} SortedDatesAgree(l1: seq<TimeEntry>, l2: seq<TimeEntry>)
    requires NewestFirst(l1) && NewestFirst(l2) && multiset(l1) == multiset(l2)
    ensures |l1| == |l2|
    ensures forall k :: 0 <= k < |l1| ==> l1[k].date == l2[k].date
    decreases |l1|
  {
    assert |multiset(l1)| == |multiset(l2)|;
    if |l1| > 0 {
      assert l1[0] in multiset(l2);
      var j :| 0 <= j < |l2| && l2[j] == l1[0];
      FirstDatesAgree(l1, l2);
      var tail1, tail2 := l1[1..], RemoveAt(l2, j);
      DatesAfterRemoval(l2, j);
      RemoveAtMultiset(l2, j);
      RemoveAtSorted(l2, j);
      RemoveFirst(l1);
      RemoveAtSorted(l1, 0);
      SortedDatesAgree(tail1, tail2);
      forall k | 0 < k < |l1| ensures l1[k].date == l2[k].date {
        assert l1[k] == tail1[k - 1];
        assert tail1[k - 1].date == tail2[k - 1].date;
      }
    }
  }

  /** For the same database reply, the report succeeds exactly when
      `/unbilled` does, and it describes whatever admissible listing
      `/unbilled` returns: one line per entry, the same lines up to the order
      of entries sharing a date, and the same date on every line. */
  lemma ReportFollowsListing(store: StoreReply, listing: seq<TimeEntry>)
    requires store.Rows? ==> IsUnbilledListing(store.rows, listing)
    ensures GetUnbilled(store).Ok? <==> GetUnbilledReport(store).Ok?
    ensures store.Rows? ==>
              var report := GetUnbilledReport(store).body;
              && |report| == |listing|
              && multiset(report) == multiset(Report(listing))
              && forall k :: 0 <= k < |listing| ==> report[k].date == listing[k].date
  {
    if store.Rows? {
      var own := UnbilledListing(store.rows);
      ReportPermutation(own, listing);
      SortedDatesAgree(own, listing);
    }
  }
}
